=== FILE: README.md ===
# Virtualised command dialog: a Dafny model of its decision logic

`CommandDialogVirtual` is a searchable single-select picker. A search input
narrows a large option list, and a virtualised list renders the matching
options inside a dialog. Ctrl+J or Cmd+J toggles the dialog; the trigger
button opens it.
This project models the component's decision logic as pure functions and
proves properties about them:

- `Text`: ASCII upper-casing, plus the contiguous-substring test behind
  `String.prototype.includes`. `Includes` is proved equal to a
  declarative `Contains`.
- `Filtering`: the `filteredOptions` memo. Loading gives nothing, an empty
  query gives the list unchanged, and otherwise the options whose upper-cased
  value contains the upper-cased query are kept in their original order.
- `Selection`: the select handler, which compares against the `value`
  prop. The host page's echo `onValueChange={setValue}` is modelled as
  "value := emitted".
- `Visibility`: the `open` flag, covering the keyboard shortcut and the
  trigger button.
- `Component`: props, state, the three list panels, the row check mark,
  input gating while loading, and a step function over user and host
  events that includes the host's echo.

Some behaviours of the code that a reader may not expect:

- Matching ignores case. For the query "al", the list "Alice Smith",
  "Bob Alan", "ALANA Reed" keeps all three names, including "Alice Smith"
  (`Filtering.AlQueryKeepsAlice`).
- A choice toggles off when the chosen option's value string equals the
  `value` prop. The component does not compare against a stored selected
  option. Two different options with the same value therefore toggle each
  other off (`Selection.SharedValueTogglesOff`).
- The `selected` state is declared, but nothing ever sets it. No row ever
  carries the check mark (`Component.NoRowEverMarked`). The model keeps
  the variable and does not invent a highlight.
- While loading, the input is not disabled. Its change handler is removed,
  so edits are dropped (`Component.InputGate`).
- The search text is seeded from `value` only on the first render. After
  that it is never read back from `value`: the select handler writes the
  chosen string (or "") into both, and a change of `value` made by the
  caller never reaches the search text.

## Model

| member | source | states |
|---|---|---|
| Text.Includes | app/command-virtualized.tsx:98 | the substring test is true exactly when the needle occurs contiguously somewhere in the haystack; the empty needle always occurs |
| Text.Upper | app/command-virtualized.tsx:98 | upper-casing keeps the length and maps each character through the ASCII upper-casing of that character, which leaves no lower-case letter |
| Text.UpperEqualIffSameIgnoringCase | app/command-virtualized.tsx:98 | two strings upper-case to the same string exactly when they agree position by position up to ASCII case |
| Filtering.Keep | app/command-virtualized.tsx:97-99 | the kept list is an order-preserving subsequence of the options; every matching option keeps its multiplicity, every non-matching one is dropped; membership holds iff the option is in the input and matches |
| Filtering.FilteredOptions | app/command-virtualized.tsx:94-100 | while loading the result is empty; an empty query returns the options unchanged; the result is always an order-preserving subsequence, never longer than the options, and contains an option iff not loading and the option is present and matches case-insensitively |
| Filtering.ShortcutAgreesWithKeep | app/command-virtualized.tsx:95-99 | the empty-query shortcut gives the same list that filtering with "" would, since every value contains the empty string; so once the loading flag clears, unchanged options and query yield exactly the matching options |
| Filtering.NarrowingQuery | app/command-virtualized.tsx:97-99 | when the old query is a substring of the new one (for example a character typed or deleted at the start or end of the query), the new result is a subsequence of the old |
| Filtering.MiddleEditIsNotMonotone | app/command-virtualized.tsx:97-99 | an edit inside the query is not monotone: with the single option "axb", the query "axb" keeps it and "ab" (the middle character deleted) keeps nothing |
| Filtering.FilterIdempotent | app/command-virtualized.tsx:94-100 | filtering an already filtered list with the same query and flag gives the same list |
| Filtering.CaseInsensitiveQuery | app/command-virtualized.tsx:98 | queries that differ only in ASCII case give the same filtered list |
| Filtering.AlQueryKeepsAlice | app/command-virtualized.tsx:97-99 | concrete case: "al" keeps "Alice Smith", "Bob Alan" and "ALANA Reed", in that order |
| Selection.HandleSelectOption | app/command-virtualized.tsx:81-92 | a value different from the prop is put in the input and emitted; the prop's own value clears the input and emits ""; input and emitted string always agree, and the emitted string equals the old prop only if both are empty |
| Selection.ChooseAndEcho | app/page.tsx:45-50 | after a choice and the host's echo `value := emitted`, an option whose value differs from the old value becomes both the input and the value, and an option equal to the old value clears both to ""; input and value always agree afterwards |
| Selection.ChooseTwice | app/command-virtualized.tsx:83-89 | from an agreeing state, choosing the same option twice restores it iff the value was "" or already that option's value |
| Selection.ChooseParity | app/command-virtualized.tsx:83-89 | from the empty state an option with a non-empty value is chosen after an odd number of activations and cleared after an even number |
| Selection.EmptyValueNeverChosen | app/command-virtualized.tsx:83-89 | an option with an empty value never moves the empty state, however often it is activated |
| Selection.SharedValueTogglesOff | app/command-virtualized.tsx:83 | choosing a second option with the same value as the first clears the state, because only values are compared |
| Visibility.OnKeyDown | app/command-virtualized.tsx:70-74 | the open flag changes iff the key is "j" with Ctrl or Meta held |
| Visibility.OnTriggerClick | app/command-virtualized.tsx:143-146 | an enabled trigger leaves the dialog open; a disabled one changes nothing |
| Visibility.ChordTwiceRestores | app/command-virtualized.tsx:71-73 | any key pressed twice leaves the open flag as it was |
| Visibility.CtrlAndMetaAgree | app/command-virtualized.tsx:71 | Ctrl+j and Meta+j both flip the flag; Ctrl+J (upper case) does not |
| Component.RenderPanels | app/command-virtualized.tsx:164-185 | exactly one of loading, list, empty is rendered; loading iff pending, empty iff not pending and nothing to show |
| Component.PanelsOfWorld | app/command-virtualized.tsx:164-185 | whenever the list is rendered, exactly one panel shows; the list shows iff not loading and some option matches the search text; the empty text shows iff not loading and none matches |
| Component.RenderRow | app/command-virtualized.tsx:109-110 | a row shows the value of the option at its index and is marked only if the `selected` state is set |
| Component.Step | app/command-virtualized.tsx:69-159 | one event emits at most one string, and one exactly when an existing row is chosen; the emitted string is the select handler's result for the option shown at that index, and the value prop then equals it and the search text; otherwise the value is unchanged; `selected` and `disabled` never change; only key, trigger and dialog events move `open`; only typing and choosing a row change the search text; only a reload changes the options or the loading flag |
| Component.Run | app/page.tsx:45-50 | over any event sequence no more strings are emitted than events, `selected` and `disabled` stay as they were, and the final value prop is the last emitted string, or the initial one if nothing was emitted |
| Component.NoRowEverMarked | app/command-virtualized.tsx:64-122 | from the first render through any events, no rendered row carries the check mark |
| Component.ShortcutIgnoresDisabled | app/command-virtualized.tsx:69-79 | the shortcut flips `open` whatever `disabled` is, and changes nothing else |
| Component.OpenChangeSets | app/command-virtualized.tsx:155 | the dialog's open-state callback sets `open` to the given value, emits nothing and changes nothing else |
| Component.TriggerOpens | app/command-virtualized.tsx:143-147 | a disabled trigger leaves the whole state unchanged; an enabled one sets `open` and nothing else |
| Component.OnInputChange | app/command-virtualized.tsx:159 | while loading the edit is dropped and the old search text stays; otherwise the search text becomes the edited text |
| Component.InputGate | app/command-virtualized.tsx:158-159 | while loading, a text edit changes nothing and emits nothing; otherwise it replaces the search text, emits nothing, and the shown list becomes exactly the options matching the new text |
| Component.ChosenOptionStaysShown | app/command-virtualized.tsx:81-100 | after any choice of a shown row, that option is still in the shown list: a new value contains itself, and a toggle-off clears the text so the whole list is shown |
| Component.ChooseRowStep | app/command-virtualized.tsx:109-116 | choosing shown row i runs the select handler on the option at index i of the filtered list against the current `value`, writes its result into the search text, echoes it into `value`, emits it once, and changes nothing else |
| Component.ToggleRoundTrip | app/command-virtualized.tsx:81-100 | from empty search text and value, choosing a row and then the same option again restores the exact prior state and emits the option's value followed by "" |

## Left out

- Windowing: the visible index range, offsets and overscan all live inside
  the third-party virtualised list. The component passes it only
  `itemCount` (the filtered length), `itemSize` 70 and `height` 600. Any
  window formula here would be invented.
- Text.UpperChar: upper-cases only ASCII 'a'..'z'. JavaScript's
  `toUpperCase` follows Unicode and can change a string's length (for
  example "ß" becomes "SS"). The model claims nothing beyond ASCII.
- Row markup, avatars and icons, the command-menu and dialog components,
  the skeleton, and the unused router are presentation or foreign code.
  Whether the dialog mounts its content only while open also belongs to
  the dialog component. For that reason choosing rows and typing are not
  restricted to an open dialog, which is a superset of what can happen.
- Installing and removing the document keydown listener, `preventDefault`,
  and hook memoisation are host event plumbing. Only the resulting change
  to `open` is modelled.
- The host page's loading of the bundled user list and its markup are out
  of scope. The model keeps only the `value` echo through `onValueChange`,
  plus a `Reload` event in which the caller pushes new options or a new
  loading flag.
- The caller's `disabled` and `value` props: no event lets the caller
  change `disabled` (the host page passes the constant `false`) or set
  `value` directly (it changes only through the echo of an emitted
  string). That `disabled` never changes in `Component.Step` and
  `Component.Run` follows from this choice of events; it is not a
  property of the component.
- Option fields other than `value` are not modelled. The `id` field stands
  for all of them, since the logic never reads any of them. A missing
  `value` cannot occur, because the type requires a string.

=== FILE: component.dfy ===
/** The command dialog as a whole: its props, its own state, the panels it
    renders, and how each user or host event changes them. The host page
    passes its own `setValue` as `onValueChange`, so every emitted string
    becomes the next `value` prop. */
module Component {
  import opened Text
  import opened Filtering
  import opened Selection
  import opened Visibility

  /** The props the host passes in. */
  datatype Props = Props(value: string, disabled: bool, isPending: bool, options: seq<Option>)

  /** The `selected` state variable. It starts out empty and the component
      has no code path that sets it. */
  datatype Selected = NothingSelected | SelectedOption(option: Option)

  /** The component's own state. */
  datatype State = State(open: bool, selected: Selected, inputValue: string)

  /** Props and state together, as seen between two events. */
  datatype World = World(props: Props, state: State)

  /** The state on first render: closed, nothing selected, and the search
      input seeded from the `value` prop. */
  function Mount(props: Props): World {
    World(props, State(false, NothingSelected, props.value))
  }

  /** The list the dialog currently shows. */
  function Filtered(w: World): seq<Option> {
    FilteredOptions(w.props.options, w.state.inputValue, w.props.isPending)
  }

  /** Which of the three panels inside the dialog's list are rendered. */
  datatype Panels = Panels(loading: bool, list: bool, empty: bool)

  predicate ExactlyOne(p: Panels) {
    || (p.loading && !p.list && !p.empty)
    || (!p.loading && p.list && !p.empty)
    || (!p.loading && !p.list && p.empty)
  }

  /** The three conditionals of the list: the skeleton while loading, the
      virtualised list when there is something to show, the "No results"
      text otherwise. */
  function RenderPanels(isPending: bool, count: nat): (p: Panels)
    ensures ExactlyOne(p)
    ensures p.loading <==> isPending
    ensures p.empty <==> !isPending && count == 0
  {
    Panels(isPending, count > 0 && !isPending, !isPending && count == 0)
  }

  /** The panels of a world. */
  function View(w: World): Panels {
    RenderPanels(w.props.isPending, |Filtered(w)|)
  }

  /** What one rendered row shows: the option's value and whether it
      carries the check mark. */
  datatype RowView = RowView(value: string, isSelected: bool)

  /** Row `index` of the shown list; it is marked when its value equals the
      value of the `selected` state. */
  function RenderRow(w: World, index: nat): (row: RowView)
    requires index < |Filtered(w)|
    ensures row.value == Filtered(w)[index].value
    ensures row.isSelected ==> w.state.selected != NothingSelected
  {
    var option := Filtered(w)[index];
    RowView(option.value, w.state.selected.SelectedOption? && w.state.selected.option.value == option.value)
  }

  /** Everything that can happen between two renders. `Reload` is the host
      pushing a new option list or loading flag. */
  datatype Event =
    | KeyDown(key: KeyEvent)
    | ClickTrigger
    | OpenChange(next: bool)
    | Type(text: string)
    | ChooseRow(index: nat)
    | Reload(isPending: bool, options: seq<Option>)

  /** The world after an event, and the strings passed to `onValueChange`
      while handling it. */
  datatype Outcome = Outcome(world: World, emitted: seq<string>)

  /** The search input's change handler is removed while loading, so an
      edit then is dropped. */
  function OnInputChange(isPending: bool, inputValue: string, text: string): (r: string)
    ensures isPending ==> r == inputValue
    ensures !isPending ==> r == text
  {
    if isPending then inputValue else text
  }

  /** One event. A chosen row runs the select handler on the option shown
      at that index and the host echoes the emitted string into `value`;
      an index past the end of the shown list is no row at all. */
  function Step(w: World, ev: Event): (o: Outcome)
    ensures |o.emitted| <= 1
    ensures |o.emitted| == 1 <==> ev.ChooseRow? && ev.index < |Filtered(w)|
    ensures |o.emitted| == 1 ==> o.world.props.value == o.emitted[0] == o.world.state.inputValue
    ensures |o.emitted| == 0 ==> o.world.props.value == w.props.value
    ensures o.world.state.selected == w.state.selected
    ensures o.world.props.disabled == w.props.disabled
    ensures o.world.state.open != w.state.open ==> ev.KeyDown? || ev.ClickTrigger? || ev.OpenChange?
    ensures !ev.Type? && !ev.ChooseRow? ==> o.world.state.inputValue == w.state.inputValue
    ensures !ev.Reload? ==> o.world.props.options == w.props.options && o.world.props.isPending == w.props.isPending
    ensures ev.ChooseRow? && ev.index < |Filtered(w)| ==>
      o.emitted == [HandleSelectOption(w.props.value, Filtered(w)[ev.index]).emitted]
  {
    var s := w.state;
    match ev
    case KeyDown(e) =>
      Outcome(World(w.props, s.(open := OnKeyDown(s.open, e))), [])
    case ClickTrigger =>
      Outcome(World(w.props, s.(open := OnTriggerClick(s.open, w.props.disabled))), [])
    case OpenChange(next) =>
      Outcome(World(w.props, s.(open := next)), [])
    case Type(text) =>
      Outcome(World(w.props, s.(inputValue := OnInputChange(w.props.isPending, s.inputValue, text))), [])
    case ChooseRow(i) =>
      var shown := Filtered(w);
      if i < |shown| then
        var c := HandleSelectOption(w.props.value, shown[i]);
        Outcome(World(w.props.(value := c.emitted), s.(inputValue := c.inputValue)), [c.emitted])
      else
        Outcome(w, [])
    case Reload(pending, options) =>
      Outcome(World(w.props.(isPending := pending, options := options), s), [])
  }

  /** A whole sequence of events, collecting every emitted string in
      order. */
  function Run(w: World, events: seq<Event>): (o: Outcome)
    ensures |o.emitted| <= |events|
    ensures o.world.state.selected == w.state.selected
    ensures o.world.props.disabled == w.props.disabled
    ensures |o.emitted| == 0 ==> o.world.props.value == w.props.value
    ensures |o.emitted| > 0 ==> o.world.props.value == o.emitted[|o.emitted| - 1]
    decreases |events|
  {
    if |events| == 0 then Outcome(w, [])
    else
      var first := Step(w, events[0]);
      var rest := Run(first.world, events[1..]);
      var emitted := first.emitted + rest.emitted;
      assert |rest.emitted| > 0 ==> emitted[|emitted| - 1] == rest.emitted[|rest.emitted| - 1];
      assert |rest.emitted| == 0 ==> emitted == first.emitted;
      Outcome(rest.world, emitted)
  }

  /** No row is ever marked as selected: from the first render on, through
      any events at all, the `selected` state stays empty. */
  lemma NoRowEverMarked(props: Props, events: seq<Event>, index: nat)
    requires index < |Filtered(Run(Mount(props), events).world)|
    ensures !RenderRow(Run(Mount(props), events).world, index).isSelected
  {
  }

  /** Exactly one panel is shown; the list panel is shown exactly when the
      caller is not loading and some option matches the search text. */
  lemma PanelsOfWorld(w: World)
    ensures ExactlyOne(View(w))
    ensures View(w).loading <==> w.props.isPending
    ensures View(w).list <==> !w.props.isPending && exists o :: o in w.props.options && Matches(o, w.state.inputValue)
    ensures View(w).empty <==> !w.props.isPending && forall o :: o in w.props.options ==> !Matches(o, w.state.inputValue)
  {
    var shown := Filtered(w);
    if !w.props.isPending && |shown| > 0 {
      assert shown[0] in shown;
    }
  }

  /** The shortcut works whether or not the trigger button is disabled, and
      touches nothing but `open`. */
  lemma ShortcutIgnoresDisabled(w: World, e: KeyEvent)
    requires IsToggleChord(e)
    ensures Step(w, KeyDown(e)).world == World(w.props, w.state.(open := !w.state.open))
  {
  }

  /** The dialog's own open-state callback sets `open` to whatever it is
      given and changes nothing else. */
  lemma OpenChangeSets(w: World, next: bool)
    ensures Step(w, OpenChange(next)) == Outcome(World(w.props, w.state.(open := next)), [])
  {
  }

  /** A disabled trigger does nothing; an enabled one opens the dialog and
      changes nothing else. */
  lemma TriggerOpens(w: World)
    ensures w.props.disabled ==> Step(w, ClickTrigger).world == w
    ensures !w.props.disabled ==> Step(w, ClickTrigger).world == World(w.props, w.state.(open := true))
  {
  }

  /** While loading, typing changes nothing at all; otherwise the text
      replaces the search input and the shown list becomes the options that
      match it. */
  lemma InputGate(w: World, text: string)
    ensures w.props.isPending ==> Step(w, Type(text)) == Outcome(w, [])
    ensures !w.props.isPending ==>
      && Step(w, Type(text)) == Outcome(World(w.props, w.state.(inputValue := text)), [])
      && Filtered(Step(w, Type(text)).world) == Keep(w.props.options, text)
  {
    ShortcutAgreesWithKeep(w.props.options, text);
  }

  /** After any choice of a shown row that option is still shown: a new
      value contains itself, and clearing the text shows the whole list. */
  lemma ChosenOptionStaysShown(w: World, i: nat)
    requires i < |Filtered(w)|
    ensures Filtered(w)[i] in Filtered(Step(w, ChooseRow(i)).world)
  {
    var o := Filtered(w)[i];
    assert o in w.props.options;
    ContainsTrivial(Upper(o.value));
    ChooseRowStep(w, i);
  }

  /** Choosing an existing row runs the select handler on its option and
      echoes the emitted string into `value`; nothing else moves. */
  lemma ChooseRowStep(w: World, i: nat)
    requires i < |Filtered(w)|
    ensures var c := HandleSelectOption(w.props.value, Filtered(w)[i]);
      Step(w, ChooseRow(i)) == Outcome(World(w.props.(value := c.emitted), w.state.(inputValue := c.inputValue)), [c.emitted])
  {
  }

  /** Running two events is stepping twice and concatenating the
      emissions. */
  lemma RunTwo(w: World, a: Event, b: Event)
    ensures var first := Step(w, a);
      var second := Step(first.world, b);
      Run(w, [a, b]) == Outcome(second.world, first.emitted + second.emitted)
  {
    var first := Step(w, a);
    var second := Step(first.world, b);
    assert [a, b][1..] == [b];
    assert [b][1..] == [];
    assert Run(second.world, []) == Outcome(second.world, []);
    assert Run(first.world, [b]) == Outcome(second.world, second.emitted + []);
  }

  /** Choosing a row and then the same option again, from a closed or open
      dialog whose search text and `value` are both empty, restores both,
      emits the value and then "", and shows the full list again. An option
      whose value is empty clears both times, which gives the same
      emissions. */
  lemma ToggleRoundTrip(w: World, i: nat, j: nat)
    requires w.state.inputValue == "" && w.props.value == ""
    requires i < |Filtered(w)|
    requires var w1 := Step(w, ChooseRow(i)).world;
      j < |Filtered(w1)| && Filtered(w1)[j] == Filtered(w)[i]
    ensures var o := Run(w, [ChooseRow(i), ChooseRow(j)]);
      && o.world == w
      && o.emitted == [Filtered(w)[i].value, ""]
  {
    var v := Filtered(w)[i].value;
    ChooseRowStep(w, i);
    var first := Step(w, ChooseRow(i));
    assert first == Outcome(World(w.props.(value := v), w.state.(inputValue := v)), [v]);
    ChooseRowStep(first.world, j);
    var second := Step(first.world, ChooseRow(j));
    assert second == Outcome(w, [""]);
    RunTwo(w, ChooseRow(i), ChooseRow(j));
  }
}

=== FILE: filtering.dfy ===
/** The option filter of the command dialog: while the caller is loading
    nothing is listed, an empty query lists everything, and otherwise the
    options whose upper-cased value contains the upper-cased query are kept
    in their original order. */
module Filtering {
  import opened Text

  /** One selectable record. Only `value` takes part in the component's
      logic; `id` stands for the fields that are carried along untouched
      (identifier, names, avatar URL). */
  datatype Option = Option(value: string, id: int)

  /** The match rule: the upper-cased option value contains the upper-cased
      query as a contiguous substring. */
  predicate Matches(option: Option, query: string) {
    Includes(Upper(option.value), Upper(query))
  }

  /** `a` is obtained from `b` by deleting elements, keeping their order. */
  ghost predicate IsSubsequence<T>(a: seq<T>, b: seq<T>)
    decreases |b|
  {
    if |a| == 0 then true
    else if |b| == 0 then false
    else (a[0] == b[0] && IsSubsequence(a[1..], b[1..])) || IsSubsequence(a, b[1..])
  }

  /** The options that match `query`, in their original order. This is the
      `options.filter(...)` call of the component. */
  function Keep(options: seq<Option>, query: string): (r: seq<Option>)
    ensures IsSubsequence(r, options)
    ensures forall o :: multiset(r)[o] == if Matches(o, query) then multiset(options)[o] else 0
    ensures forall o :: o in r <==> o in options && Matches(o, query)
  {
    if |options| == 0 then []
    else
      var rest := Keep(options[1..], query);
      assert options == [options[0]] + options[1..];
      if Matches(options[0], query) then [options[0]] + rest
      else
        SubsequenceCons(rest, options[1..], options[0]);
        rest
  }

  /** The filtered option list the component renders, given the options,
      the current text of the search input and the caller's loading flag. */
  function FilteredOptions(options: seq<Option>, inputValue: string, isPending: bool): (r: seq<Option>)
    ensures isPending ==> r == []
    ensures !isPending && inputValue == "" ==> r == options
    ensures IsSubsequence(r, options)
    ensures |r| <= |options|
    ensures forall o :: o in r <==> !isPending && o in options && Matches(o, inputValue)
  {
    if isPending then
      SubsequenceOfNothing(options);
      []
    else if inputValue == "" then
      EverythingMatchesEmpty();
      SubsequenceReflexive(options);
      options
    else
      var r := Keep(options, inputValue);
      SubsequenceLength(r, options);
      r
  }

  lemma SubsequenceOfNothing<T>(b: seq<T>)
    ensures IsSubsequence([], b)
  {
  }

  /** A subsequence stays one when an element is put in front of the longer
      sequence. */
  lemma SubsequenceCons<T>(a: seq<T>, b: seq<T>, x: T)
    requires IsSubsequence(a, b)
    ensures IsSubsequence(a, [x] + b)
  {
    assert ([x] + b)[1..] == b;
  }

  /** Every sequence is a subsequence of itself. */
  lemma {:induction false} SubsequenceReflexive<T>(a: seq<T>)
    ensures IsSubsequence(a, a)
    decreases |a|
  {
    if |a| > 0 {
      SubsequenceReflexive(a[1..]);
    }
  }

  /** A subsequence is never longer than the sequence it comes from. */
  lemma {:induction false} SubsequenceLength<T>(a: seq<T>, b: seq<T>)
    requires IsSubsequence(a, b)
    ensures |a| <= |b|
    decreases |b|
  {
    if |a| > 0 {
      if a[0] == b[0] && IsSubsequence(a[1..], b[1..]) {
        SubsequenceLength(a[1..], b[1..]);
      } else {
        SubsequenceLength(a, b[1..]);
      }
    }
  }

  /** Every option matches the empty query. */
  lemma EverythingMatchesEmpty()
    ensures forall o :: Matches(o, "")
  {
    forall o: Option
      ensures Matches(o, "")
    {
      ContainsTrivial(Upper(o.value));
      assert Upper("") == "";
    }
  }

  /** The empty-query shortcut changes nothing: keeping the options that
      match "" keeps all of them, so the filter could do without it. With
      the first ensures of `FilteredOptions` this also says that clearing
      the loading flag, with options and query unchanged, turns the empty
      list into the matching options without any edit of the query. */
  lemma {:induction false} ShortcutAgreesWithKeep(options: seq<Option>, inputValue: string)
    ensures FilteredOptions(options, inputValue, false) == Keep(options, inputValue)
  {
    if inputValue == "" {
      KeepAllOnEmptyQuery(options);
    }
  }

  lemma KeepAllOnEmptyQuery(options: seq<Option>)
    ensures Keep(options, "") == options
  {
    EverythingMatchesEmpty();
    KeepAllWhenAllMatch(options, "");
  }

  /** When the old query is a substring of the new one (for example a
      character typed or deleted at the start or end of the query), the new
      result is a subsequence of the old. An edit in the middle of the query
      carries no such guarantee (see `MiddleEditIsNotMonotone`). */
  lemma NarrowingQuery(options: seq<Option>, query: string, longer: string, isPending: bool)
    requires Contains(longer, query)
    ensures IsSubsequence(FilteredOptions(options, longer, isPending), FilteredOptions(options, query, isPending))
  {
    var r := FilteredOptions(options, longer, isPending);
    if isPending {
    } else if longer == "" {
      var i :| OccursAt(longer, query, i);
      assert query == "";
      SubsequenceReflexive(options);
    } else if query == "" {
    } else {
      UpperPreservesContains(longer, query);
      KeepNarrows(options, query, longer);
    }
  }

  /** Deleting a character in the middle of the query can shrink the list
      and typing one there can grow it: "AXB" contains "AXB" but not "AB". */
  lemma MiddleEditIsNotMonotone()
    ensures FilteredOptions([Option("axb", 1)], "axb", false) == [Option("axb", 1)]
    ensures FilteredOptions([Option("axb", 1)], "ab", false) == []
  {
    assert Upper("axb") == "AXB";
    assert Upper("ab") == "AB";
    assert OccursAt("AXB", "AXB", 0);
    assert !Contains("AXB", "AB") by {
      forall i: int
        ensures !OccursAt("AXB", "AB", i)
      {
        if 0 <= i && i + 2 <= 3 {
          assert "AXB"[i..i + 2][0] == "AXB"[i];
          assert "AXB"[i..i + 2][1] == "AXB"[i + 1];
        }
      }
    }
  }

  lemma {:induction false} KeepNarrows(options: seq<Option>, query: string, longer: string)
    requires Contains(Upper(longer), Upper(query))
    ensures IsSubsequence(Keep(options, longer), Keep(options, query))
  {
    if |options| > 0 {
      var h := options[0];
      KeepNarrows(options[1..], query, longer);
      var k' := Keep(options[1..], longer);
      var k := Keep(options[1..], query);
      if Matches(h, longer) {
        ContainsTransitive(Upper(h.value), Upper(longer), Upper(query));
        assert Keep(options, longer) == [h] + k';
        assert Keep(options, query) == [h] + k;
        assert ([h] + k')[1..] == k';
        assert ([h] + k)[1..] == k;
      } else if Matches(h, query) {
        SubsequenceCons(k', k, h);
      }
    }
  }

  /** Filtering an already filtered list with the same query changes
      nothing. */
  lemma FilterIdempotent(options: seq<Option>, inputValue: string, isPending: bool)
    ensures FilteredOptions(FilteredOptions(options, inputValue, isPending), inputValue, isPending)
         == FilteredOptions(options, inputValue, isPending)
  {
    if !isPending && inputValue != "" {
      KeepIdempotent(options, inputValue);
    }
  }

  lemma {:induction false} KeepIdempotent(options: seq<Option>, query: string)
    ensures Keep(Keep(options, query), query) == Keep(options, query)
  {
    if |options| > 0 {
      KeepIdempotent(options[1..], query);
      var k := Keep(options[1..], query);
      if Matches(options[0], query) {
        assert ([options[0]] + k)[1..] == k;
      }
    }
  }

  /** The query is compared without regard to ASCII case: two queries that
      differ only in case select the same options. */
  lemma CaseInsensitiveQuery(options: seq<Option>, query: string, other: string, isPending: bool)
    requires SameIgnoringCase(query, other)
    ensures FilteredOptions(options, query, isPending) == FilteredOptions(options, other, isPending)
  {
    UpperEqualIffSameIgnoringCase(query, other);
    KeepSameUpper(options, query, other);
  }

  lemma {:induction false} KeepSameUpper(options: seq<Option>, query: string, other: string)
    requires Upper(query) == Upper(other)
    ensures Keep(options, query) == Keep(options, other)
  {
    if |options| > 0 {
      KeepSameUpper(options[1..], query, other);
    }
  }

  /** When every option matches, filtering keeps the list as it is. */
  lemma {:induction false} KeepAllWhenAllMatch(options: seq<Option>, query: string)
    requires forall i :: 0 <= i < |options| ==> Matches(options[i], query)
    ensures Keep(options, query) == options
  {
    if |options| > 0 {
      KeepAllWhenAllMatch(options[1..], query);
    }
  }

  /** A concrete list: the query "al" keeps all three names, "Alice Smith"
      included, because the match ignores case. */
  lemma AlQueryKeepsAlice()
    ensures FilteredOptions([Option("Alice Smith", 1), Option("Bob Alan", 2), Option("ALANA Reed", 3)], "al", false)
         == [Option("Alice Smith", 1), Option("Bob Alan", 2), Option("ALANA Reed", 3)]
  {
    var options := [Option("Alice Smith", 1), Option("Bob Alan", 2), Option("ALANA Reed", 3)];
    assert Upper("al") == "AL";
    assert Matches(options[0], "al") by {
      assert Upper("Alice Smith") == "ALICE SMITH";
      assert OccursAt("ALICE SMITH", "AL", 0);
    }
    assert Matches(options[1], "al") by {
      assert Upper("Bob Alan") == "BOB ALAN";
      assert OccursAt("BOB ALAN", "AL", 4);
    }
    assert Matches(options[2], "al") by {
      assert Upper("ALANA Reed") == "ALANA REED";
      assert OccursAt("ALANA REED", "AL", 0);
    }
    KeepAllWhenAllMatch(options, "al");
  }
}

=== FILE: selection.dfy ===
/** Choosing a row. The component compares the chosen option's value with
    the `value` prop it was given (not with any internal state): a different
    value is written into the search input and reported to the caller; the
    same value clears the input and reports "". The host page echoes every
    reported value straight back into the `value` prop. */
module Selection {
  import opened Filtering

  /** What choosing a row does: the new text of the search input and the
      one string handed to `onValueChange`. */
  datatype Choice = Choice(inputValue: string, emitted: string)

  /** The select handler, given the current `value` prop. */
  function HandleSelectOption(value: string, selected: Option): (c: Choice)
    ensures c.inputValue == c.emitted
    ensures selected.value != value ==> c.emitted == selected.value
    ensures selected.value == value ==> c.emitted == ""
    ensures c.emitted == value ==> value == ""
  {
    if selected.value != value then Choice(selected.value, selected.value)
    else Choice("", "")
  }

  /** The pair of strings a choice touches: the component's search text and
      the host's value, which the host keeps equal to the last emitted
      string. */
  datatype Pair = Pair(inputValue: string, value: string)

  /** One choice followed by the host's echo `value := emitted`. */
  function ChooseAndEcho(p: Pair, selected: Option): (q: Pair)
    ensures q.inputValue == q.value
    ensures q.value == selected.value || q.value == ""
    ensures q.value != p.value || q.value == ""
    ensures selected.value != p.value ==> q == Pair(selected.value, selected.value)
    ensures selected.value == p.value ==> q == Pair("", "")
  {
    var c := HandleSelectOption(p.value, selected);
    Pair(c.inputValue, c.emitted)
  }

  /** Choosing the same option twice restores a synchronised pair exactly
      when its value was empty or already that option's value. */
  lemma ChooseTwice(p: Pair, selected: Option)
    requires p.inputValue == p.value
    ensures ChooseAndEcho(ChooseAndEcho(p, selected), selected) == p
        <==> (p.value == "" || p.value == selected.value)
  {
  }

  /** The empty state: nothing typed and nothing chosen. */
  const Empty := Pair("", "")

  /** Choosing one option `n` times from the empty state. */
  function ChooseRepeatedly(selected: Option, n: nat): (p: Pair)
    ensures p.inputValue == p.value
    ensures p == Empty || p == Pair(selected.value, selected.value)
  {
    if n == 0 then Empty else ChooseAndEcho(ChooseRepeatedly(selected, n - 1), selected)
  }

  /** Starting from the empty state, the option is chosen after an odd
      number of activations and the state is empty again after an even
      number. */
  lemma {:induction false} ChooseParity(selected: Option, n: nat)
    requires selected.value != ""
    ensures n % 2 == 1 ==> ChooseRepeatedly(selected, n) == Pair(selected.value, selected.value)
    ensures n % 2 == 0 ==> ChooseRepeatedly(selected, n) == Empty
  {
    if n > 0 {
      ChooseParity(selected, n - 1);
    }
  }

  /** An option whose value is empty can never be chosen: the component
      treats it as already chosen and clears the input instead. */
  lemma EmptyValueNeverChosen(selected: Option, n: nat)
    requires selected.value == ""
    ensures ChooseRepeatedly(selected, n) == Empty
  {
  }

  /** Two different options that share a value are indistinguishable to the
      handler: choosing the second after the first toggles off, because the
      comparison is on `value` only. */
  lemma SharedValueTogglesOff(first: Option, second: Option)
    requires first.value == second.value && first.value != ""
    ensures ChooseAndEcho(ChooseAndEcho(Empty, first), second) == Empty
  {
  }
}

=== FILE: text.dfy ===
/** Strings as the picker's filter sees them: ASCII upper-casing and the
    contiguous-substring test behind `String.prototype.includes`. */
module Text {

  /** True for the 26 lower-case ASCII letters. */
  predicate IsLower(c: char) {
    'a' <= c <= 'z'
  }

  /** Upper-cases one character; everything outside 'a'..'z' is left alone. */
  function UpperChar(c: char): (u: char)
    ensures !IsLower(u)
  {
    if IsLower(c) then (c as int - 32) as char else c
  }

  /** Character-wise upper-casing; the length never changes. */
  function Upper(s: string): (u: string)
    ensures |u| == |s|
    ensures forall i :: 0 <= i < |s| ==> u[i] == UpperChar(s[i])
  {
    seq(|s|, i requires 0 <= i < |s| => UpperChar(s[i]))
  }

  /** Two characters are equal up to ASCII case. */
  predicate SameLetter(a: char, b: char) {
    a == b || (IsLower(a) && b as int == a as int - 32) || (IsLower(b) && a as int == b as int - 32)
  }

  /** Two strings are equal up to ASCII case, position by position. */
  predicate SameIgnoringCase(s: string, t: string) {
    |s| == |t| && forall i :: 0 <= i < |s| ==> SameLetter(s[i], t[i])
  }

  /** `t` occurs in `s` starting at index `i`. */
  ghost predicate OccursAt(s: string, t: string, i: int) {
    0 <= i && i + |t| <= |s| && s[i..i + |t|] == t
  }

  /** `t` is a contiguous substring of `s`. */
  ghost predicate Contains(s: string, t: string) {
    exists i :: OccursAt(s, t, i)
  }

  /** The substring test, scanning `s` from the left. */
  function Includes(s: string, t: string): (r: bool)
    ensures r <==> Contains(s, t)
    decreases |s|
  {
    if |s| < |t| then
      assert !Contains(s, t);
      false
    else if s[..|t|] == t then
      assert OccursAt(s, t, 0);
      true
    else
      ContainsShift(s, t);
      Includes(s[1..], t)
  }

  /** When `t` does not start `s`, it occurs in `s` exactly when it occurs
      in the tail of `s`. */
  lemma ContainsShift(s: string, t: string)
    requires |t| <= |s|
    requires s[..|t|] != t
    ensures Contains(s, t) <==> Contains(s[1..], t)
  {
    if Contains(s, t) {
      var i :| OccursAt(s, t, i);
      assert i != 0;
      assert s[1..][i - 1..i - 1 + |t|] == s[i..i + |t|];
      assert OccursAt(s[1..], t, i - 1);
    }
    if Contains(s[1..], t) {
      var j :| OccursAt(s[1..], t, j);
      assert s[1..][j..j + |t|] == s[j + 1..j + 1 + |t|];
      assert OccursAt(s, t, j + 1);
    }
  }

  /** Every string contains the empty string and itself. */
  lemma ContainsTrivial(s: string)
    ensures Contains(s, "")
    ensures Contains(s, s)
  {
    assert OccursAt(s, "", 0);
    assert OccursAt(s, s, 0);
  }

  /** The substring relation is transitive. */
  lemma ContainsTransitive(a: string, b: string, c: string)
    requires Contains(a, b) && Contains(b, c)
    ensures Contains(a, c)
  {
    var i :| OccursAt(a, b, i);
    var j :| OccursAt(b, c, j);
    forall k | 0 <= k < |c|
      ensures a[i + j + k] == c[k]
    {
      assert a[i + j + k] == a[i..i + |b|][j + k];
      assert c[k] == b[j..j + |c|][k];
    }
    assert a[i + j..i + j + |c|] == c;
    assert OccursAt(a, c, i + j);
  }

  /** Upper-casing commutes with taking a slice. */
  lemma UpperSlice(s: string, i: int, j: int)
    requires 0 <= i <= j <= |s|
    ensures Upper(s[i..j]) == Upper(s)[i..j]
  {
  }

  /** A substring of `s` upper-cases to a substring of `Upper(s)`. */
  lemma UpperPreservesContains(s: string, t: string)
    requires Contains(s, t)
    ensures Contains(Upper(s), Upper(t))
  {
    var i :| OccursAt(s, t, i);
    UpperSlice(s, i, i + |t|);
    assert OccursAt(Upper(s), Upper(t), i);
  }

  /** Upper-casing identifies exactly the strings that are equal up to ASCII
      case. */
  lemma UpperEqualIffSameIgnoringCase(s: string, t: string)
    ensures Upper(s) == Upper(t) <==> SameIgnoringCase(s, t)
  {
    if Upper(s) == Upper(t) {
      forall i | 0 <= i < |s|
        ensures SameLetter(s[i], t[i])
      {
        assert UpperChar(s[i]) == UpperChar(t[i]);
      }
    }
    if SameIgnoringCase(s, t) {
      forall i | 0 <= i < |s|
        ensures Upper(s)[i] == Upper(t)[i]
      {
        assert SameLetter(s[i], t[i]);
      }
    }
  }
}

=== FILE: visibility.dfy ===
/** Whether the command dialog is open. A document-level Ctrl+J / Cmd+J
    flips it, the trigger button opens it, and the dialog itself reports
    the state it wants through `onOpenChange`. */
module Visibility {

  /** The fields of a browser keydown event the shortcut reads. */
  datatype KeyEvent = KeyEvent(key: string, ctrlKey: bool, metaKey: bool)

  /** The shortcut: the key "j" (lower case, so not Shift+J) with Ctrl or
      Meta held. */
  predicate IsToggleChord(e: KeyEvent) {
    e.key == "j" && (e.metaKey || e.ctrlKey)
  }

  /** The keydown listener: flips `open` on the shortcut and ignores every
      other key. */
  function OnKeyDown(open: bool, e: KeyEvent): (r: bool)
    ensures r != open <==> IsToggleChord(e)
  {
    if IsToggleChord(e) then !open else open
  }

  /** The trigger button: a click opens the dialog; a disabled button
      cannot be clicked, so nothing changes. */
  function OnTriggerClick(open: bool, disabled: bool): (r: bool)
    ensures disabled ==> r == open
    ensures !disabled ==> r
  {
    if disabled then open else true
  }

  /** Pressing the shortcut twice returns to where it started. */
  lemma ChordTwiceRestores(open: bool, e: KeyEvent)
    ensures OnKeyDown(OnKeyDown(open, e), e) == open
  {
  }

  /** Ctrl+J and Cmd+J behave the same. */
  lemma CtrlAndMetaAgree(open: bool)
    ensures OnKeyDown(open, KeyEvent("j", true, false)) == OnKeyDown(open, KeyEvent("j", false, true)) == !open
    ensures OnKeyDown(open, KeyEvent("J", true, false)) == open
  {
  }
}
